=== FILE: README.md ===
# Wallet / transaction store — a Dafny model

This project models the model layer of a small wallet API, together with the
transaction serializer and the transaction view's create path. The state is
one immutable record (`Store.Store`) holding:

- the wallet table: id ↦ (label, balance, version);
- the transaction table: id ↦ (wallet, txid, amount, timestamp);
- the balance cache: wallet key ↦ balance;
- the two auto-increment counters, which start at 1, so no stored key is 0.

Callers hold in-memory instances (`WalletObj`, `TxObj`). These are snapshots
that keep the balance and version they were read with, so the optimistic
version guard is modelled by saving stale instances one after another.
Money is an exact Dafny `real`.

Every operation is a pure function. Each returns the new store, the mutated
instance and the exception the Python code would raise, by class
(`ValueError`, `DoesNotExist`, `IntegrityError`, `ValidationError`) and
message.

- `Wallet.save` runs the version guard, then the version bump, then the
  balance check constraint.
- `Transaction.save` runs the negative-balance check, adds the delta to the
  caller's wallet instance, saves that wallet, writes the row, then drops the
  cache key.
- `get_balance` is a read-through of the cache.
- The delete operations follow the cascade and the post-delete signal.

The main results:

- the database's integrity (`Store.Valid`) holds after every operation: no
  negative balance, labels and txids within their 100-character columns, no
  orphaned transaction, txids unique up to letter case;
- a wallet's balance equals its opening balance plus its transactions'
  amounts across any run of creations that are saved or refused before
  writing (`Ledger.ReplayKeepsLedger`);
- several code paths break that equation as written:
  - deleting a transaction;
  - saving a stored transaction again, with its own amount or a new one
    (`Ledger.ResaveBreaksLedger`, `Ledger.UpdateAmountBreaksLedger`);
  - a row write the database refuses after the wallet write: a duplicate
    txid, or a txid longer than its column (`Ledger.DuplicateTxidBreaksLedger`,
    `Ledger.LongTxidBreaksLedger`);
  - a direct balance update through the wallet endpoint
    (`Ledger.WalletUpdateBreaksLedger`);
- of two saves from instances at the same version, the second always fails;
- on the create path the view answers only 201 or 400, with exactly one
  error item, as long as the database and the cache server do not fail.
  Such failures are not modelled; in the code one raised during validation
  answers 500.

Behaviours of the code worth noting, all modelled as written:

- Creation is not atomic. The wallet row is written before the transaction
  row, and no atomic block or per-request transaction is configured. A
  duplicate txid that slips past the serializer's uniqueness check therefore
  leaves the wallet updated with no row to show for it
  (`Views.InterleavedDuplicateTxid`).
- A version conflict raises `ValueError`, as `Wallet.save` documents. The
  view does not recognise that class, so it answers 400 with the generic
  message "An unexpected error occurred."
- An unknown wallet and a duplicate txid on the sequential path are refused
  by the serializer's field validation with a 400, not by a not-found error
  or the database.
- Every `Transaction.save` applies its amount, not only the first one.
  Deleting a transaction does not give the amount back.

Txids are compared as the unique column compares them. The database is MySQL
with no collation configured, and the default collation ignores letter case.
So "TX001" and "tx001" clash, both in the uniqueness validator's lookup and at
the unique index (`Scenarios.CaseVariantTxidRejected`). The model folds ASCII
capitals to small letters before comparing (`Store.SameTxid`).

The text columns hold at most 100 characters, and `Model.save` does not check
that. The database refuses a longer value when it is written, as MySQL does in
its default strict mode. A too-long label fails the wallet write with nothing
written. A too-long txid fails the row write after the wallet was written,
and that exception is not one the view recognises.

## Model

| member | source | states |
|---|---|---|
| `Cache.Invalidate` | wallet_transaction_api/models.py:131-143 | the signal handler removes exactly the wallet's key; every other entry keeps its key and value |
| `Cache.GetBalance` | wallet_transaction_api/models.py:75-82 | a hit returns the cached value and leaves the cache unchanged; a miss returns the instance's balance and stores it under the instance's key; other keys are untouched |
| `Cache.GetBalanceStable` | wallet_transaction_api/models.py:75-82 | a second read of the same key returns the same value and changes nothing |
| `Cache.ReadAfterInvalidate` | wallet_transaction_api/models.py:75-82 | after the key is invalidated, a read returns the instance's current balance |
| `Wallets.Fetch` | wallet_transaction_api/models.py:57 | a lookup succeeds exactly for a stored id, giving an instance with that key and the stored row; otherwise DoesNotExist |
| `Wallets.SaveWallet` | wallet_transaction_api/models.py:47-65 | the save succeeds exactly when the guard passes, the label fits its 100-character column and the balance is not negative. A too-long label raises the database's data error. A stale version raises the conflict ValueError and leaves the store unchanged. A passing existing instance has its version bumped by exactly 1 and persisted. A new instance skips the guard, keeps its version and gets the next key. A failed save changes nothing |
| `Wallets.CreateWallet` | wallet_transaction_api/models.py:21-28 | a created wallet has version 0 and balance 0 unless one is given; creation fails exactly for a label over 100 characters or a negative balance |
| `Wallets.DeleteWallet` | wallet_transaction_api/models.py:96-98 | deleting a wallet removes it and exactly the transactions that reference it; the others are unchanged; its cache key is dropped exactly when it had transactions |
| `Wallets.SaveWalletValid` | wallet_transaction_api/models.py:38-42 | no wallet save, successful or not, leaves a negative balance, an orphaned transaction or a duplicate txid |
| `Wallets.DeleteWalletValid` | wallet_transaction_api/models.py:96-98 | the cascade leaves no transaction pointing at a deleted wallet |
| `Wallets.SecondSaveConflicts` | wallet_transaction_api/models.py:55-63 | of two saves from instances with the same version, the second fails with the conflict error and changes nothing |
| `Transactions.SaveTransaction` | wallet_transaction_api/models.py:116-128 | the save succeeds exactly when balance plus amount is not negative, the guard passes, the wallet's label and the txid fit their 100-character columns and the txid is free (no other row's txid equal to it up to letter case). A negative result raises the ValueError with no write, no row and no cache change. A stale or missing wallet fails without writing. Success writes old balance plus amount with the version plus 1, adds the row and drops only that wallet's cache key. A too-long txid raises the data error and a txid that fits but clashes raises the unique-index integrity error, both after the wallet write, leaving the rows and the cache as they were. An instance whose row was deleted is inserted again with the current timestamp. The check constraint never fires |
| `Transactions.CreateTransaction` | wallet_transaction_api/models.py:124-128 | with a freshly read wallet, creation succeeds exactly when balance plus amount is not negative, the wallet's label and the txid fit their columns, and no stored txid equals the txid up to letter case. On success the row (wallet, txid, amount, now) is stored under the next key, the wallet's balance grows by the amount and its version by 1, no other wallet changes, and that wallet's cache key is dropped |
| `Transactions.DeleteTransaction` | wallet_transaction_api/models.py:131-143 | deleting a transaction removes only its row and its wallet's cache key; every wallet's balance and version stay as they were |
| `Transactions.SaveTransactionValid` | wallet_transaction_api/models.py:124-128 | every transaction save, including the partial write, keeps balances non-negative, foreign keys resolved and txids unique |
| `Transactions.CreateTransactionValid` | wallet_transaction_api/models.py:124-128 | every creation keeps the database's integrity |
| `Transactions.StaleInstanceRejected` | wallet_transaction_api/models.py:124-127 | a transaction built on a wallet instance made stale by an earlier save fails with the conflict error and writes nothing |
| `Transactions.DeleteTransactionValid` | wallet_transaction_api/models.py:131-143 | deleting a transaction keeps the database's integrity |
| `Ledger.LedgerCreateWallet` | wallet_transaction_api/models.py:21-28 | a new wallet's ledger opens at its creation balance and the other wallets' ledgers are unaffected |
| `Transactions.WriteTx` | wallet_transaction_api/models.py:99-101 | the row write refuses a txid over 100 characters, then a txid clashing with another row; otherwise it inserts a new row under the next key with the current timestamp, overwrites a stored row keeping its timestamp, or inserts a deleted row again with the current timestamp |
| `Ledger.LedgerCreateTransaction` | wallet_transaction_api/models.py:124-128 | after a successful creation every wallet's balance is still its opening balance plus the sum of its transactions' amounts |
| `Ledger.FailedCreationWritesNothing` | wallet_transaction_api/models.py:124-127 | a creation that fails anywhere but at the row write (missing wallet, negative-balance check, guard, wallet write) leaves the store exactly as it was |
| `Ledger.LedgerDeleteWallet` | wallet_transaction_api/models.py:96-98 | the cascade keeps the ledger of every remaining wallet |
| `Ledger.ReplayKeepsLedger` | wallet_transaction_api/models.py:124-128 | over any sequence of creations, each saved or refused before writing, every wallet's balance stays its opening balance plus the sum of its transactions' amounts, and the database keeps its integrity |
| `Ledger.DeleteTransactionBreaksLedger` | wallet_transaction_api/models.py:131-143 | deleting a transaction with a non-zero amount leaves its wallet's balance out of step with its transactions |
| `Ledger.ResaveBreaksLedger` | wallet_transaction_api/models.py:124-128 | saving a stored transaction again applies its amount a second time while the rows stay the same |
| `Ledger.WalletUpdateBreaksLedger` | wallet_transaction_api/models.py:55-65 | a direct save of a freshly read wallet with a different non-negative balance succeeds, leaves the transaction rows unchanged and breaks the wallet's ledger |
| `Ledger.LongTxidBreaksLedger` | wallet_transaction_api/models.py:126-128 | a txid over 100 characters fails with the data error after the wallet's balance has moved, so no row records the change |
| `Ledger.UpdateAmountBreaksLedger` | wallet_transaction_api/models.py:124-128 | saving a stored transaction with a new amount succeeds, replaces the row's amount, adds the whole new amount to the balance and breaks the ledger |
| `Ledger.DuplicateTxidBreaksLedger` | wallet_transaction_api/models.py:126-128 | a duplicate txid reaching the database fails with the integrity error after the wallet's balance has moved, so no row records the change |
| `Listing.InsertByAmount` | wallet_transaction_api/models.py:111 | inserting a row into a listing sorted by descending amount keeps it sorted and adds exactly that row |
| `Listing.InsertByAmountDistinct` | wallet_transaction_api/models.py:111 | inserting a row not yet listed into a listing without repeats leaves it without repeats |
| `Listing.DefaultListing` | wallet_transaction_api/models.py:111 | the default listing holds every row exactly once, with amounts that never increase |
| `Listing.OrderingExample` | tests/test_api.py:121-136 | for the rows 50.00 and 75.00, the default listing is the 75.00 row then the 50.00 row |
| `Serializers.WalletDataHidesVersion` | wallet_transaction_api/serializers.py:17 | the wallet representation is id, label and balance: rows that differ only in version look the same |
| `Serializers.TransactionDataExposesRow` | wallet_transaction_api/serializers.py:23 | the transaction representation is id, wallet, txid, amount and timestamp: two rows look the same exactly when they are equal |
| `Serializers.Validate` | wallet_transaction_api/serializers.py:25-32 | validation rejects exactly when wallet balance plus amount is negative, with "Wallet balance cannot be negative"; when it accepts it returns its input unchanged |
| `Serializers.ValidateFields` | wallet_transaction_api/models.py:96-101 | field validation passes exactly when the wallet exists and the txid is present, non-blank, at most 100 characters, free of NUL characters and unused, and an amount is given. A txid with a NUL character is refused with "Null characters are not allowed." A txid equal to a stored one up to letter case is refused as already existing. Any failure is a ValidationError |
| `Serializers.IsValid` | wallet_transaction_api/views.py:100 | validation passes exactly when the fields pass and the freshly read balance plus amount is not negative; the negative case carries the model's message |
| `Serializers.ZeroAmountAccepted` | wallet_transaction_api/serializers.py:29 | a zero amount is accepted for any wallet with a non-negative balance |
| `Serializers.ValidateAgreesWithSave` | wallet_transaction_api/serializers.py:29-30 | against the same wallet instance, the serializer accepts exactly when the model's negative-balance check does not fire |
| `Views.Reraise` | wallet_transaction_api/views.py:74-81 | every exception from the save becomes a ValidationError. A validation or integrity error keeps its message. Anything else, including the model's ValueErrors and the database's data errors, gets "An unexpected error occurred." |
| `Views.PerformCreate` | wallet_transaction_api/views.py:74-81 | perform_create succeeds exactly when the model save does; it keeps whatever the save wrote, and only ever raises a ValidationError |
| `Views.ErrorResponse` | wallet_transaction_api/views.py:106-116 | a validation or integrity error gives 400 with its message; any other exception gives 500 with the generic message; the envelope has exactly one error with a detail |
| `Views.Create` | wallet_transaction_api/views.py:98-116 | create answers 201 exactly when validation and perform_create both succeed, with the new row's representation; otherwise 400 with one error, never 500 (no modelled step raises a database or cache-server error); a validation failure writes nothing |
| `Views.ServerErrorOnlyForUnrecognised` | wallet_transaction_api/views.py:106-116 | a 500 arises only from an exception create does not recognise; anything re-raised by perform_create gives 400 |
| `Views.CreateSequential` | wallet_transaction_api/views.py:98-105 | without interleaving, a request is answered 201 exactly when it passes validation, and a 400 leaves the store untouched |
| `Views.CreateSuccess` | wallet_transaction_api/views.py:100-105 | a 201 stores the requested row, moves the wallet's balance by the amount, bumps its version by 1 and drops its cache key |
| `Views.CreateNegativeRejected` | wallet_transaction_api/views.py:106-110 | a request that would make the balance negative gets 400 with "Wallet balance cannot be negative" and no write |
| `Views.CreateNullCharacterRejected` | wallet_transaction_api/serializers.py:20-23 | a request whose txid holds a NUL character gets 400 with "Null characters are not allowed." and no write |
| `Views.CreateDuplicateRejected` | wallet_transaction_api/views.py:106-110 | a request with a used txid gets 400 with one detail and no write |
| `Views.CreateUnknownWalletRejected` | wallet_transaction_api/views.py:106-110 | a request naming a missing wallet gets 400 with one detail and no write |
| `Views.InterleavedSameWallet` | wallet_transaction_api/views.py:74-81 | of two requests validated against the same state of one wallet and then performed in turn, the second hits the version conflict. It is answered 400 with the generic message and writes nothing |
| `Views.InterleavedDuplicateTxid` | wallet_transaction_api/models.py:126-128 | of two requests with one txid on different wallets, validated together and then performed in turn, the second gets the integrity error. Its wallet's balance and version have already moved |
| `Scenarios.WalletTransactionFlow` | tests/test_integration.py:103-135 | 0 → +100 → −50 gives 50; −100 gets 400 with the negative-balance message and leaves 50; 0.00 gets 201 and leaves 50 |
| `Scenarios.CaseVariantTxidRejected` | wallet_transaction_api/models.py:99 | with "TX001" stored, a request for "tx001" gets 400 "transaction with this txid already exists." and writes nothing |
| `Scenarios.NegativeTransactionLeavesBalance` | tests/test_models.py:34-45 | −150 on a 100 wallet raises the negative-balance ValueError and the balance stays 100 |
| `Scenarios.CacheInvalidatedByTransaction` | tests/test_models.py:48-66 | a cached 100 is dropped by a +50 transaction and the next read returns 150 |
| `Scenarios.WalletSaveLeavesStaleCache` | wallet_transaction_api/models.py:131-132 | only transaction signals invalidate: after a direct wallet save the cache still returns the old balance |

## Left out

- HTTP routing, API documentation, admin, WSGI, settings and the migration environment: framework glue and configuration.
- The 15-minute response cache on the list views and the 5-minute expiry of balance-cache entries: time-based. The cache is a plain map, and entries live until invalidated.
- Pagination, query-parameter filtering, caller-chosen ordering and JSON:API rendering and parsing: library behaviour. The exact `str(e)` formatting of an error detail is left out for the same reason. A detail is modelled as the message the exception carries. The framework's field messages are approximations: an unknown wallet gets "Invalid pk - object does not exist." without the pk, and a missing or unparsable wallet or amount gets "This field is required.", where the framework says "Incorrect type…" or "A valid number is required." for an unparsable one.
- Field validation generated by the framework is modelled by its outcome only. Covered: the related-wallet lookup, required and blank txid, the 100-character limit, the NUL-character validator, and the uniqueness validator. When several fields or validators fail the framework reports them all; the model reports the first, in declaration order.
- Wallet endpoints other than deletion (list, retrieve, create, partial update) are framework code. They are covered by `Wallets.CreateWallet` and `Wallets.SaveWallet`. The serializer-level non-negative balance validator on a wallet update is not modelled; the database check constraint in `SaveWallet` is.
- Decimal column precision and rounding (18/8 digits for balances, 36/18 for amounts): they depend on the database backend, so money is an exact real. The precision test scenario is not modelled.
- `Wallets.SaveWallet`: the balance column's 18-digit limit is enforced by the database and not modelled. The label's length limit is modelled for strict mode only; a server outside strict mode would truncate the label instead.
- `Wallets.CreateWallet`: the same balance digit limit and strict-mode assumption apply.
- `Transactions.SaveTransaction`: the amount column's 36-digit limit and the balance's 18-digit limit are enforced by the database and not modelled. The txid length limit is modelled for strict mode only.
- `Transactions.CreateTransaction`: the same digit limits and strict-mode assumption apply.
- Real concurrency and database transactions: interleavings are modelled only as whole saves applied in sequence from stale instances.
- `Wallets.SaveWallet`: instances whose key is 0 are not modelled. Keys are positive, as the auto-increment columns hand them out. In the code, `if self.pk:` would treat a hand-set key 0 as unsaved and skip the guard.
- `Wallets.SaveWallet`: the version is an unbounded integer. The 32-bit column would overflow after 2^31 − 1 saves of one wallet, and that database error is not modelled.
- `Views.Create`: database and cache-server failures are not modelled. In the code, such a failure raised during the related-wallet or uniqueness lookup reaches the catch-all handler and answers 500. A cache-server error in the post-save handler, or a version overflow, after the wallet (and, for the cache, the row) was written would answer the generic 400 with those writes kept.
- `Transactions.SaveTransaction`: the collation is modelled as ASCII case folding only. Accent-insensitive matching and other Unicode equivalences of the default collation, and the trailing-space padding of older collations, are not modelled.
- `Transactions.CreateTransaction`: uses the same txid comparison, so the same collation details are not modelled.
- `Serializers.ValidateFields`: the uniqueness validator's lookup uses the same txid comparison, so the same collation details are not modelled. Two more pieces of framework field behaviour are not modelled, since field validation is modelled by its outcome only. The txid field trims surrounding whitespace, so with "TX001" stored the framework refuses " TX001 " as existing while the model accepts it. The amount field enforces 36 digits with 18 decimal places.
- `Wallets.SaveWallet`: the guard's lookup and the write are one step here. In the code they are two separate queries, and two truly simultaneous saves could both pass the guard; that race is not modelled.
- Database error wording depends on the backend. An integrity error carries the name of the violated constraint or column instead, and a data error the name of the column.
- The clock is a parameter (`now`). The timestamp is set when a row is inserted, including when a saved instance's deleted row is inserted again, and kept when a stored row is saved again.
- The transaction update endpoint is not modelled separately. Its effect on the model (the delta applied again on save) is `Transactions.SaveTransaction` with an instance that already has a key.
- Deleting a missing row answers 404 in the framework. The model returns `DoesNotExist`.
- A cascaded wallet deletion fires the transaction's post-delete signal once for each removed transaction. The model folds these into a single invalidation of the wallet's key.
- Logging and the test harness.

=== FILE: base.dfy ===
/** Identifiers, money, exceptions and the messages the application raises. */
module Base {

  datatype Option<T> = None | Some(value: T)

  /** Success value or the exception the Python code would raise. */
  datatype Result<T> = Ok(value: T) | Err(error: Exception)

  /**
   * Surrogate keys handed out by the database's auto-increment columns, which
   * start at 1. A stored row's key is therefore never 0, the one integer key
   * Python's `if self.pk:` treats as "not saved".
   */
  type WalletId = x: nat | x >= 1 witness 1
  type TxId = x: nat | x >= 1 witness 1

  /** Decimal amounts are exact, so money is a Dafny `real`. */
  type Money = real

  /**
   * Exceptions by Python class, each with the message `str(e)` yields.
   * The view layer dispatches on the class, so the class is part of the model.
   */
  datatype Exception =
    | ValueError(msg: string)
    | DoesNotExist(msg: string)
    | IntegrityError(msg: string)
    | DataError(msg: string)
    | ValidationError(msg: string)

  /** Raised by the transaction model and by the serializer's `validate`. */
  const NegativeBalanceMessage := "Wallet balance cannot be negative"

  /** Raised by the wallet's optimistic version guard. */
  const ConflictMessage := "Conflict: The wallet has been modified since it was last read."

  /** The view's replacement text for every exception it does not recognise. */
  const UnexpectedMessage := "An unexpected error occurred."

  /** Raised by `Wallet.objects.get` when the row is gone. */
  const WalletMissingMessage := "Wallet matching query does not exist."
  const TxMissingMessage := "Transaction matching query does not exist."

  /** Database errors: the model carries the name of the violated constraint. */
  const BalanceCheckName := "wallet_balance_non_negative"
  const TxidUniqueName := "txid"

  /** Value-too-long errors: the model carries the name of the column. */
  const LabelColumnName := "label"
  const TxidColumnName := "txid"

  /** Framework field-validation messages (outcome only). */
  const RequiredMessage := "This field is required."
  const BlankMessage := "This field may not be blank."
  const TxidTooLongMessage := "Ensure this field has no more than 100 characters."
  const TxidExistsMessage := "transaction with this txid already exists."
  const NullCharactersMessage := "Null characters are not allowed."
  const WalletNotFoundMessage := "Invalid pk - object does not exist."

  /** `max_length` of the transaction's txid column. */
  const TxidMaxLength := 100

  /** `max_length` of the wallet's label column. */
  const LabelMaxLength := 100
}

=== FILE: cache.dfy ===
/**
 * The balance cache: a read-through map from wallet key to balance, with
 * explicit invalidation. Expiry is not modelled; entries live until removed.
 */
module Cache {
  import opened Base
  import opened Store

  /** Delete one key; the transaction signal handler does this. */
  function Invalidate(cache: map<CacheKey, Money>, key: CacheKey): (c: map<CacheKey, Money>)
    ensures key !in c
    ensures forall k :: k != key ==> (k in c <==> k in cache)
    ensures forall k :: k in c ==> c[k] == cache[k]
  {
    cache - {key}
  }

  /**
   * `Wallet.get_balance`: a hit returns the cached value; a miss returns the
   * instance's own balance and stores it under the instance's key.
   * The result pairs the returned balance with the new cache.
   */
  function GetBalance(cache: map<CacheKey, Money>, w: WalletObj): (r: (Money, map<CacheKey, Money>))
    ensures w.pk in cache ==> r.0 == cache[w.pk] && r.1 == cache
    ensures w.pk !in cache ==> r.0 == w.balance
    ensures r.1.Keys == cache.Keys + {w.pk} && r.1[w.pk] == r.0
    ensures forall k :: k in cache && k != w.pk ==> r.1[k] == cache[k]
  {
    if w.pk in cache then (cache[w.pk], cache)
    else (w.balance, cache[w.pk := w.balance])
  }

  /** A second read of the same key is a hit and changes nothing. */
  lemma GetBalanceStable(cache: map<CacheKey, Money>, w: WalletObj, w': WalletObj)
    requires w'.pk == w.pk
    ensures GetBalance(GetBalance(cache, w).1, w') == GetBalance(cache, w)
  {
  }

  /** After the key is invalidated, a read returns the instance's balance. */
  lemma ReadAfterInvalidate(cache: map<CacheKey, Money>, w: WalletObj)
    ensures GetBalance(Invalidate(cache, w.pk), w).0 == w.balance
  {
  }
}

=== FILE: ledger.dfy ===
/**
 * The balance ledger: a wallet's stored balance equals its opening balance
 * plus the amounts of the transactions that reference it. The code keeps this
 * incrementally; the lemmas show which operations keep it and which do not.
 */
module Ledger {
  import opened Base
  import opened Store
  import opened Wallets
  import opened Transactions

  /** What one transaction row adds to wallet `w`. */
  function Contribution(row: TxRow, w: WalletId): Money {
    if row.wallet == w then row.amount else 0.0
  }

  /** Some key of a non-empty table; which one does not matter. */
  ghost function Pick(txs: map<TxId, TxRow>): (k: TxId)
    requires txs != map[]
    ensures k in txs
  {
    assert exists k :: k in txs.Keys by {
      assert txs.Keys != {};
    }
    var k :| k in txs; k
  }

  /** The sum of the amounts of the rows that reference wallet `w`. */
  ghost function WalletTotal(txs: map<TxId, TxRow>, w: WalletId): Money
    decreases |txs|
  {
    if txs == map[] then 0.0
    else
      var k := Pick(txs);
      Contribution(txs[k], w) + WalletTotal(txs - {k}, w)
  }

  /** Every stored wallet's balance is its opening balance plus its transactions. */
  ghost predicate Ledger(s: Store, opening: map<WalletId, Money>) {
    forall w :: w in s.wallets ==> w in opening && s.wallets[w].balance == opening[w] + WalletTotal(s.txs, w)
  }

  /** The total does not depend on which row is taken first. */
  lemma {:induction false} WalletTotalRemove(txs: map<TxId, TxRow>, w: WalletId, k: TxId)
    requires k in txs
    ensures WalletTotal(txs, w) == Contribution(txs[k], w) + WalletTotal(txs - {k}, w)
    decreases |txs|
  {
    var j := Pick(txs);
    if j != k {
      var withoutJ := txs - {j};
      var withoutK := txs - {k};
      assert withoutJ.Keys == txs.Keys - {j};
      assert k in withoutJ && withoutJ[k] == txs[k];
      assert j in withoutK && withoutK[j] == txs[j];
      assert withoutK - {j} == withoutJ - {k};
      WalletTotalRemove(withoutJ, w, k);
      WalletTotalRemove(withoutK, w, j);
    }
  }

  /** Adding a row under a fresh key adds its contribution. */
  lemma WalletTotalInsert(txs: map<TxId, TxRow>, w: WalletId, k: TxId, row: TxRow)
    requires k !in txs
    ensures WalletTotal(txs[k := row], w) == Contribution(row, w) + WalletTotal(txs, w)
  {
    WalletTotalRemove(txs[k := row], w, k);
    assert txs[k := row] - {k} == txs;
  }

  /** Overwriting a row changes the total by the difference of the contributions. */
  lemma WalletTotalReplace(txs: map<TxId, TxRow>, w: WalletId, k: TxId, row: TxRow)
    requires k in txs
    ensures WalletTotal(txs[k := row], w) == WalletTotal(txs, w) - Contribution(txs[k], w) + Contribution(row, w)
  {
    WalletTotalRemove(txs[k := row], w, k);
    WalletTotalRemove(txs, w, k);
    assert txs[k := row] - {k} == txs - {k};
  }

  /** A wallet no row references has total zero. */
  lemma {:induction false} WalletTotalUnreferenced(txs: map<TxId, TxRow>, w: WalletId)
    requires forall t :: t in txs ==> txs[t].wallet != w
    ensures WalletTotal(txs, w) == 0.0
    decreases |txs|
  {
    if txs != map[] {
      var k := Pick(txs);
      WalletTotalRemove(txs, w, k);
      WalletTotalUnreferenced(txs - {k}, w);
    }
  }

  /** Dropping rows of other wallets leaves `w`'s total alone. */
  lemma {:induction false} WalletTotalDropOthers(txs: map<TxId, TxRow>, sub: map<TxId, TxRow>, w: WalletId)
    requires forall t :: t in sub ==> t in txs && sub[t] == txs[t]
    requires forall t :: t in txs && t !in sub ==> txs[t].wallet != w
    ensures WalletTotal(sub, w) == WalletTotal(txs, w)
    decreases |txs|
  {
    if txs == map[] {
      assert sub == map[];
    } else {
      var k := Pick(txs);
      WalletTotalRemove(txs, w, k);
      if k in sub {
        WalletTotalRemove(sub, w, k);
        WalletTotalDropOthers(txs - {k}, sub - {k}, w);
      } else {
        WalletTotalDropOthers(txs - {k}, sub, w);
      }
    }
  }

  /** Creating a wallet opens its ledger at the balance it was created with. */
  lemma LedgerCreateWallet(s: Store, opening: map<WalletId, Money>, name: string, balance: Option<Money>)
    requires Valid(s) && Ledger(s, opening)
    requires CreateWallet(s, name, balance).err.None?
    ensures Ledger(CreateWallet(s, name, balance).store,
                   opening[s.nextWallet := CreateWallet(s, name, balance).obj.balance])
  {
    WalletTotalUnreferenced(s.txs, s.nextWallet);
  }

  /** A successful transaction creation keeps every wallet's ledger. */
  lemma LedgerCreateTransaction(s: Store, opening: map<WalletId, Money>, wallet: WalletId, txid: string, amount: Money, now: int)
    requires Valid(s) && Ledger(s, opening)
    requires CreateTransaction(s, wallet, txid, amount, now).err.None?
    ensures Ledger(CreateTransaction(s, wallet, txid, amount, now).store, opening)
  {
    var o := CreateTransaction(s, wallet, txid, amount, now);
    var row := o.store.txs[s.nextTx];
    assert o.store.txs == s.txs[s.nextTx := row];
    forall v | v in o.store.wallets
      ensures v in opening && o.store.wallets[v].balance == opening[v] + WalletTotal(o.store.txs, v)
    {
      WalletTotalInsert(s.txs, v, s.nextTx, row);
    }
  }

  /** A creation that fails anywhere but at the row write leaves the store as it was. */
  lemma FailedCreationWritesNothing(s: Store, wallet: WalletId, txid: string, amount: Money, now: int)
    requires CreateTransaction(s, wallet, txid, amount, now).err.Some?
    requires !RowRejected(CreateTransaction(s, wallet, txid, amount, now).err)
    ensures CreateTransaction(s, wallet, txid, amount, now).store == s
  {
  }

  /** Deleting a wallet together with its transactions keeps the other wallets' ledgers. */
  lemma LedgerDeleteWallet(s: Store, opening: map<WalletId, Money>, id: WalletId)
    requires Valid(s) && Ledger(s, opening)
    requires DeleteWallet(s, id).Ok?
    ensures Ledger(DeleteWallet(s, id).value, opening)
  {
    var s' := DeleteWallet(s, id).value;
    forall v | v in s'.wallets
      ensures v in opening && s'.wallets[v].balance == opening[v] + WalletTotal(s'.txs, v)
    {
      WalletTotalDropOthers(s.txs, s'.txs, v);
    }
  }

  /**
   * Deleting a transaction with a non-zero amount breaks its wallet's ledger:
   * the row is gone but the balance keeps its amount.
   */
  lemma DeleteTransactionBreaksLedger(s: Store, opening: map<WalletId, Money>, id: TxId)
    requires Valid(s) && Ledger(s, opening)
    requires id in s.txs && s.txs[id].amount != 0.0
    ensures !Ledger(DeleteTransaction(s, id).value, opening)
  {
    var w := s.txs[id].wallet;
    WalletTotalRemove(s.txs, w, id);
  }

  /**
   * Saving an already stored transaction again, with a freshly read wallet,
   * applies its amount a second time while the rows stay as they were.
   */
  lemma ResaveBreaksLedger(s: Store, opening: map<WalletId, Money>, id: TxId, now: int)
    requires Valid(s) && Ledger(s, opening)
    requires id in s.txs && s.txs[id].amount != 0.0
    requires Fetch(s, s.txs[id].wallet).value.balance + s.txs[id].amount >= 0.0
    ensures var row := s.txs[id];
            var o := SaveTransaction(s, TxObj(Some(id), Fetch(s, row.wallet).value, row.txid, row.amount, row.timestamp), now);
            && o.err.None?
            && o.store.txs == s.txs
            && o.store.wallets[row.wallet].balance == s.wallets[row.wallet].balance + row.amount
            && !Ledger(o.store, opening)
  {
  }

  /**
   * A duplicate txid that reaches the database fails after the wallet was
   * written: the balance moves, no row is added, and the ledger is broken.
   */
  lemma DuplicateTxidBreaksLedger(s: Store, opening: map<WalletId, Money>, wallet: WalletId, txid: string, amount: Money, now: int)
    requires Valid(s) && Ledger(s, opening)
    requires wallet in s.wallets && s.wallets[wallet].balance + amount >= 0.0 && amount != 0.0
    requires TxidTaken(s.txs, txid, None)
    ensures var o := CreateTransaction(s, wallet, txid, amount, now);
            && o.err == Some(IntegrityError(TxidUniqueName))
            && o.store.txs == s.txs
            && o.store.wallets[wallet].balance == s.wallets[wallet].balance + amount
            && !Ledger(o.store, opening)
  {
  }

  /**
   * Updating a wallet's balance directly, as the wallet endpoint's update
   * does through `Wallet.save`, moves the balance while the transaction rows
   * stay the same, so the ledger no longer holds.
   */
  lemma WalletUpdateBreaksLedger(s: Store, opening: map<WalletId, Money>, id: WalletId, b: Money)
    requires Valid(s) && Ledger(s, opening)
    requires id in s.wallets && b >= 0.0 && b != s.wallets[id].balance
    ensures var o := SaveWallet(s, Fetch(s, id).value.(balance := b));
            && o.err.None?
            && o.store.txs == s.txs
            && o.store.wallets[id].balance == b
            && !Ledger(o.store, opening)
  {
  }

  /**
   * A txid longer than its column reaches the database only after the wallet
   * was written: the balance moves, no row is added, and the ledger is broken.
   */
  lemma LongTxidBreaksLedger(s: Store, opening: map<WalletId, Money>, wallet: WalletId, txid: string, amount: Money, now: int)
    requires Valid(s) && Ledger(s, opening)
    requires wallet in s.wallets && s.wallets[wallet].balance + amount >= 0.0 && amount != 0.0
    requires |txid| > TxidMaxLength
    ensures var o := CreateTransaction(s, wallet, txid, amount, now);
            && o.err == Some(DataError(TxidColumnName))
            && o.store.txs == s.txs
            && o.store.wallets[wallet].balance == s.wallets[wallet].balance + amount
            && !Ledger(o.store, opening)
  {
  }

  /**
   * Saving a stored transaction with a new amount, as the transaction
   * endpoint's update does, adds the whole new amount to the balance while
   * the row's contribution changes by the difference only, so the ledger
   * breaks whenever the old amount was not zero.
   */
  lemma UpdateAmountBreaksLedger(s: Store, opening: map<WalletId, Money>, id: TxId, amount: Money, now: int)
    requires Valid(s) && Ledger(s, opening)
    requires id in s.txs && s.txs[id].amount != 0.0
    requires s.wallets[s.txs[id].wallet].balance + amount >= 0.0
    ensures var row := s.txs[id];
            var o := SaveTransaction(s, TxObj(Some(id), Fetch(s, row.wallet).value, row.txid, amount, row.timestamp), now);
            && o.err.None?
            && o.store.txs == s.txs[id := row.(amount := amount)]
            && o.store.wallets[row.wallet].balance == s.wallets[row.wallet].balance + amount
            && !Ledger(o.store, opening)
  {
    var row := s.txs[id];
    var o := SaveTransaction(s, TxObj(Some(id), Fetch(s, row.wallet).value, row.txid, amount, row.timestamp), now);
    assert o.store.txs == s.txs[id := row.(amount := amount)];
    WalletTotalReplace(s.txs, row.wallet, id, row.(amount := amount));
  }

  /** A request to create one transaction, as `Transaction.objects.create` receives it. */
  datatype TxRequest = TxRequest(wallet: WalletId, txid: string, amount: Money, now: int)

  function Step(s: Store, r: TxRequest): TxSave {
    CreateTransaction(s, r.wallet, r.txid, r.amount, r.now)
  }

  /** Apply the requests in order, each with a freshly read wallet. */
  function Replay(s: Store, reqs: seq<TxRequest>): Store
    decreases |reqs|
  {
    if |reqs| == 0 then s else Replay(Step(s, reqs[0]).store, reqs[1..])
  }

  /** No request of the run fails at the row write after writing its wallet. */
  predicate NoPartialWrite(s: Store, reqs: seq<TxRequest>)
    decreases |reqs|
  {
    |reqs| == 0 ||
    (!RowRejected(Step(s, reqs[0]).err) && NoPartialWrite(Step(s, reqs[0]).store, reqs[1..]))
  }

  /**
   * Over any run of creations, each one either saved or refused before
   * writing, every wallet's balance stays its opening balance plus the sum
   * of its transactions, and the database keeps its integrity.
   */
  lemma {:induction false} ReplayKeepsLedger(s: Store, opening: map<WalletId, Money>, reqs: seq<TxRequest>)
    requires Valid(s) && Ledger(s, opening)
    requires NoPartialWrite(s, reqs)
    ensures Valid(Replay(s, reqs)) && Ledger(Replay(s, reqs), opening)
    decreases |reqs|
  {
    if |reqs| != 0 {
      var r := reqs[0];
      CreateTransactionValid(s, r.wallet, r.txid, r.amount, r.now);
      if Step(s, r).err.None? {
        LedgerCreateTransaction(s, opening, r.wallet, r.txid, r.amount, r.now);
      } else {
        FailedCreationWritesNothing(s, r.wallet, r.txid, r.amount, r.now);
      }
      ReplayKeepsLedger(Step(s, r).store, opening, reqs[1..]);
    }
  }
}

=== FILE: listing.dfy ===
/**
 * The transaction table's default ordering: descending by amount. Rows with
 * equal amounts may come in any order, as the database does not fix one.
 */
module Listing {
  import opened Base
  import opened Store

  predicate AllStored(txs: map<TxId, TxRow>, order: seq<TxId>) {
    forall i :: 0 <= i < |order| ==> order[i] in txs
  }

  predicate Distinct(order: seq<TxId>) {
    forall i, j :: 0 <= i < j < |order| ==> order[i] != order[j]
  }

  /** Amounts never increase along the listing. */
  predicate NonIncreasing(txs: map<TxId, TxRow>, order: seq<TxId>)
    requires AllStored(txs, order)
  {
    forall i, j :: 0 <= i < j < |order| ==> txs[order[i]].amount >= txs[order[j]].amount
  }

  /** Every row exactly once, largest amount first. */
  predicate IsDefaultListing(txs: map<TxId, TxRow>, order: seq<TxId>) {
    && AllStored(txs, order)
    && (forall t :: t in txs ==> t in order)
    && |order| == |txs|
    && Distinct(order)
    && NonIncreasing(txs, order)
  }

  /** A row no smaller than every row of a sorted listing can go in front of it. */
  lemma PrependSorted(txs: map<TxId, TxRow>, head: TxId, rest: seq<TxId>)
    requires head in txs && AllStored(txs, rest) && NonIncreasing(txs, rest)
    requires forall k :: 0 <= k < |rest| ==> txs[head].amount >= txs[rest[k]].amount
    ensures AllStored(txs, [head] + rest) && NonIncreasing(txs, [head] + rest)
  {
    var r := [head] + rest;
    assert forall k :: 0 < k < |r| ==> r[k] == rest[k - 1];
  }

  /** A row not yet listed keeps the listing free of repeats. */
  lemma PrependDistinct(head: TxId, rest: seq<TxId>)
    requires Distinct(rest) && head !in rest
    ensures Distinct([head] + rest)
  {
    var r := [head] + rest;
    assert forall k :: 0 < k < |r| ==> r[k] == rest[k - 1];
  }

  /** Place row `t` into a listing after every row with a larger amount. */
  function InsertByAmount(txs: map<TxId, TxRow>, order: seq<TxId>, t: TxId): (r: seq<TxId>)
    requires t in txs && AllStored(txs, order) && NonIncreasing(txs, order)
    ensures |r| == |order| + 1
    ensures forall x :: x in r <==> x in order || x == t
    ensures AllStored(txs, r) && NonIncreasing(txs, r)
    decreases |order|
  {
    if |order| == 0 || txs[order[0]].amount <= txs[t].amount then
      PrependSorted(txs, t, order);
      [t] + order
    else
      var head := order[0];
      var rest := InsertByAmount(txs, order[1..], t);
      assert forall k :: 0 <= k < |rest| ==> rest[k] in order[1..] || rest[k] == t;
      assert forall k :: 0 < k < |order| ==> txs[head].amount >= txs[order[k]].amount;
      PrependSorted(txs, head, rest);
      [head] + rest
  }

  /** Inserting a row not yet listed into a listing without repeats keeps it without repeats. */
  lemma {:induction false} InsertByAmountDistinct(txs: map<TxId, TxRow>, order: seq<TxId>, t: TxId)
    requires t in txs && AllStored(txs, order) && NonIncreasing(txs, order)
    requires Distinct(order) && t !in order
    ensures Distinct(InsertByAmount(txs, order, t))
    decreases |order|
  {
    if |order| == 0 || txs[order[0]].amount <= txs[t].amount {
      PrependDistinct(t, order);
    } else {
      var rest := InsertByAmount(txs, order[1..], t);
      assert order == [order[0]] + order[1..];
      InsertByAmountDistinct(txs, order[1..], t);
      PrependDistinct(order[0], rest);
    }
  }

  /** The default listing of the transaction table. */
  method DefaultListing(txs: map<TxId, TxRow>) returns (order: seq<TxId>)
    ensures IsDefaultListing(txs, order)
  {
    order := [];
    var rest := txs.Keys;
    while rest != {}
      invariant rest <= txs.Keys
      invariant AllStored(txs, order) && Distinct(order) && NonIncreasing(txs, order)
      invariant forall t :: t in order <==> t in txs && t !in rest
      invariant |order| + |rest| == |txs|
      decreases rest
    {
      var t :| t in rest;
      InsertByAmountDistinct(txs, order, t);
      order := InsertByAmount(txs, order, t);
      rest := rest - {t};
    }
  }

  /** The ordering example of the API tests: the 75.00 row precedes the 50.00 row. */
  lemma OrderingExample(order: seq<TxId>)
    requires IsDefaultListing(map[1 := TxRow(1, "TX001", 50.0, 0), 2 := TxRow(2, "TX002", 75.0, 0)], order)
    ensures order == [2, 1]
  {
    var txs := map[1 := TxRow(1, "TX001", 50.0, 0), 2 := TxRow(2, "TX002", 75.0, 0)];
    assert 1 in order && 2 in order;
  }
}

=== FILE: scenarios.dfy ===
/** Concrete runs of the model that mirror the repository's test scenarios. */
module Scenarios {
  import opened Base
  import opened Store
  import opened Cache
  import opened Wallets
  import opened Transactions
  import opened Serializers
  import opened Views

  /** A request body for wallet 1. */
  function Post(txid: string, amount: Money): Payload {
    Payload(Some(1), Some(txid), Some(amount))
  }

  /**
   * A new wallet starts at 0; +100.00 and -50.00 are accepted and leave 50.00;
   * -100.00 is answered 400 with the negative-balance message and changes
   * nothing; 0.00 is accepted and leaves 50.00.
   */
  lemma WalletTransactionFlow()
    ensures var s0 := CreateWallet(Empty, "Test Wallet", None).store;
            var r1 := Create(s0, Post("TX001", 100.0), 0);
            var r2 := Create(r1.store, Post("TX002", -50.0), 0);
            var r3 := Create(r2.store, Post("TX003", -100.0), 0);
            var r4 := Create(r3.store, Post("TX004", 0.0), 0);
            && s0.wallets == map[1 := WalletRow("Test Wallet", 0.0, 0)]
            && r1.response.status == 201
            && r2.response.status == 201
            && r2.store.wallets[1].balance == 50.0
            && r3.response == Response(400, Errors([ErrorItem(NegativeBalanceMessage)]))
            && r3.store == r2.store
            && r4.response.status == 201
            && r4.store.wallets[1].balance == 50.0
  {
    var s0 := CreateWallet(Empty, "Test Wallet", None).store;
    var r1 := Create(s0, Post("TX001", 100.0), 0);
    assert r1.store.txs == map[1 := TxRow(1, "TX001", 100.0, 0)];
    assert r1.store.wallets[1].balance == 100.0;
    assert Fold("TX001")[4] == '1' && Fold("TX002")[4] == '2';
    var r2 := Create(r1.store, Post("TX002", -50.0), 0);
    assert r2.store.txs == map[1 := TxRow(1, "TX001", 100.0, 0), 2 := TxRow(1, "TX002", -50.0, 0)];
    var r3 := Create(r2.store, Post("TX003", -100.0), 0);
    assert r3.store == r2.store;
    assert Fold("TX003")[4] == '3' && Fold("TX004")[4] == '4';
    assert !TxidTaken(r3.store.txs, "TX004", None);
  }

  /**
   * Txids compare without regard to case: once "TX001" is stored, a request
   * for "tx001" is refused by the uniqueness validator and writes nothing.
   */
  lemma CaseVariantTxidRejected()
    ensures var s0 := CreateWallet(Empty, "Test Wallet", None).store;
            var r1 := Create(s0, Post("TX001", 100.0), 0);
            var r2 := Create(r1.store, Post("tx001", 10.0), 0);
            && r1.response.status == 201
            && r2 == Reply(r1.store, Response(400, Errors([ErrorItem(TxidExistsMessage)])))
  {
    var s0 := CreateWallet(Empty, "Test Wallet", None).store;
    var r1 := Create(s0, Post("TX001", 100.0), 0);
    assert Fold("TX001") == Fold("tx001");
    assert r1.store.txs[1].txid == "TX001";
    assert TxidTaken(r1.store.txs, "tx001", None);
  }

  /**
   * At the model level a -150.00 transaction on a 100.00 wallet raises the
   * negative-balance ValueError and the stored balance stays 100.00.
   */
  lemma NegativeTransactionLeavesBalance()
    ensures var made := CreateWallet(Empty, "Test Wallet", Some(100.0));
            var o := SaveTransaction(made.store, TxObj(None, made.obj, "NEG_TX", -150.0, 0), 0);
            && o.err == Some(ValueError(NegativeBalanceMessage))
            && o.store == made.store
            && o.store.wallets[1].balance == 100.0
  {
  }

  /**
   * The cache test: a read caches 100.00; saving a +50.00 transaction through
   * the same instance removes the key; the next read through that instance,
   * whose balance the save updated, returns 150.00 and caches it.
   */
  lemma CacheInvalidatedByTransaction()
    ensures var made := CreateWallet(Empty, "Test Wallet", Some(100.0));
            var first := GetBalance(made.store.cache, made.obj);
            var s1 := made.store.(cache := first.1);
            var o := SaveTransaction(s1, TxObj(None, made.obj, "TX001", 50.0, 0), 0);
            var second := GetBalance(o.store.cache, o.obj.wallet);
            && first.0 == 100.0
            && Some(1) in s1.cache
            && o.err.None?
            && Some(1) !in o.store.cache
            && second.0 == 150.0
            && second.1[Some(1)] == 150.0
  {
  }

  /**
   * A direct wallet save does not touch the cache: a balance cached before
   * the update is still returned afterwards.
   */
  lemma WalletSaveLeavesStaleCache()
    ensures var made := CreateWallet(Empty, "Test Wallet", Some(100.0));
            var first := GetBalance(made.store.cache, made.obj);
            var s1 := made.store.(cache := first.1);
            var patched := SaveWallet(s1, made.obj.(balance := 150.0));
            && patched.err.None?
            && patched.store.wallets[1].balance == 150.0
            && GetBalance(patched.store.cache, patched.obj).0 == 100.0
  {
  }
}

=== FILE: serializers.dfy ===
/**
 * The serializers: the exposed field sets of both models, the transaction
 * serializer's field validation (outcome only) and its `validate` hook.
 */
module Serializers {
  import opened Base
  import opened Store
  import opened Wallets
  import opened Transactions

  /** The wallet's external fields: id, label and balance; the version stays internal. */
  datatype WalletData = WalletData(id: WalletId, name: string, balance: Money)

  /** The transaction's external fields: id, wallet, txid, amount and timestamp. */
  datatype TransactionData = TransactionData(id: TxId, wallet: WalletId, txid: string, amount: Money, timestamp: int)

  function SerializeWallet(id: WalletId, row: WalletRow): WalletData {
    WalletData(id, row.name, row.balance)
  }

  function SerializeTransaction(id: TxId, row: TxRow): TransactionData {
    TransactionData(id, row.wallet, row.txid, row.amount, row.timestamp)
  }

  /**
   * Two wallet rows look the same from outside exactly when label and
   * balance agree, whatever their versions.
   */
  lemma WalletDataHidesVersion(id: WalletId, a: WalletRow, b: WalletRow)
    ensures SerializeWallet(id, a) == SerializeWallet(id, b) <==> a.name == b.name && a.balance == b.balance
  {
  }

  /** Every stored field of a transaction is exposed: the representation loses nothing. */
  lemma TransactionDataExposesRow(id: TxId, a: TxRow, b: TxRow)
    ensures SerializeTransaction(id, a) == SerializeTransaction(id, b) <==> a == b
  {
  }

  /** The serializer's validated data: the wallet is resolved to an instance. */
  datatype TxInput = TxInput(wallet: WalletObj, txid: string, amount: Money)

  /** `TransactionSerializer.validate`: refuse a delta that would make the wallet negative. */
  function Validate(d: TxInput): (r: Result<TxInput>)
    ensures r.Ok? <==> d.wallet.balance + d.amount >= 0.0
    ensures r.Ok? ==> r.value == d
    ensures r.Err? ==> r.error == ValidationError(NegativeBalanceMessage)
  {
    if d.wallet.balance + d.amount < 0.0 then Err(ValidationError(NegativeBalanceMessage))
    else Ok(d)
  }

  /** The raw request attributes; `None` is a missing or unparsable attribute. */
  datatype Payload = Payload(wallet: Option<int>, txid: Option<string>, amount: Option<Money>)

  /** The wallet attribute names a stored wallet. */
  predicate WalletResolves(s: Store, p: Payload) {
    p.wallet.Some? && p.wallet.value >= 1 && p.wallet.value as WalletId in s.wallets
  }

  /** The txid attribute is present, non-blank, short enough, free of NUL characters and unused. */
  predicate TxidAcceptable(s: Store, p: Payload) {
    && p.txid.Some? && 0 < |p.txid.value| <= TxidMaxLength && '\0' !in p.txid.value
    && !TxidTaken(s.txs, p.txid.value, None)
  }

  /**
   * Field validation: the wallet lookup, the txid checks (required, not
   * blank, at most 100 characters, no NUL character, not already used) and
   * a present amount, in declaration order; the first failing field is
   * reported.
   */
  function ValidateFields(s: Store, p: Payload): (r: Result<TxInput>)
    ensures r.Ok? <==> WalletResolves(s, p) && TxidAcceptable(s, p) && p.amount.Some?
    ensures r.Ok? ==> r.value == TxInput(Fetch(s, p.wallet.value as WalletId).value, p.txid.value, p.amount.value)
    ensures r.Err? ==> r.error.ValidationError?
    ensures (WalletResolves(s, p) && p.txid.Some? && 0 < |p.txid.value| <= TxidMaxLength
             && '\0' in p.txid.value) ==> r == Err(ValidationError(NullCharactersMessage))
    ensures (WalletResolves(s, p) && p.txid.Some? && 0 < |p.txid.value| <= TxidMaxLength
             && '\0' !in p.txid.value && TxidTaken(s.txs, p.txid.value, None)) ==>
              r == Err(ValidationError(TxidExistsMessage))
  {
    if p.wallet.None? then Err(ValidationError(RequiredMessage))
    else if p.wallet.value < 1 || p.wallet.value as WalletId !in s.wallets then Err(ValidationError(WalletNotFoundMessage))
    else if p.txid.None? then Err(ValidationError(RequiredMessage))
    else if |p.txid.value| == 0 then Err(ValidationError(BlankMessage))
    else if |p.txid.value| > TxidMaxLength then Err(ValidationError(TxidTooLongMessage))
    else if '\0' in p.txid.value then Err(ValidationError(NullCharactersMessage))
    else if TxidTaken(s.txs, p.txid.value, None) then Err(ValidationError(TxidExistsMessage))
    else if p.amount.None? then Err(ValidationError(RequiredMessage))
    else Ok(TxInput(Fetch(s, p.wallet.value as WalletId).value, p.txid.value, p.amount.value))
  }

  /** `is_valid(raise_exception=True)`: field validation, then `validate`. */
  function IsValid(s: Store, p: Payload): (r: Result<TxInput>)
    ensures r.Ok? <==>
              && WalletResolves(s, p) && TxidAcceptable(s, p) && p.amount.Some?
              && s.wallets[p.wallet.value as WalletId].balance + p.amount.value >= 0.0
    ensures r.Ok? ==> r.value.wallet == Fetch(s, p.wallet.value as WalletId).value
                      && r.value.txid == p.txid.value && r.value.amount == p.amount.value
    ensures r.Err? ==> r.error.ValidationError?
    ensures (WalletResolves(s, p) && TxidAcceptable(s, p) && p.amount.Some?
             && s.wallets[p.wallet.value as WalletId].balance + p.amount.value < 0.0) ==>
              r == Err(ValidationError(NegativeBalanceMessage))
  {
    match ValidateFields(s, p)
    case Err(e) => Err(e)
    case Ok(d) => Validate(d)
  }

  /** A zero amount is always accepted for a wallet whose balance is not negative. */
  lemma ZeroAmountAccepted(d: TxInput)
    requires d.amount == 0.0 && d.wallet.balance >= 0.0
    ensures Validate(d) == Ok(d)
  {
  }

  /**
   * `validate` and `Transaction.save` test the same predicate: against the
   * same wallet instance, the serializer accepts exactly when the model's
   * negative-balance check lets the save through.
   */
  lemma ValidateAgreesWithSave(s: Store, d: TxInput, now: int)
    ensures Validate(d).Ok? <==>
              SaveTransaction(s, TxObj(None, d.wallet, d.txid, d.amount, now), now).err
                != Some(ValueError(NegativeBalanceMessage))
  {
  }
}

=== FILE: store.dfy ===
/**
 * The persisted state: wallet rows, transaction rows, the balance cache,
 * and the in-memory model instances callers hold between reads and saves.
 */
module Store {
  import opened Base

  /** A row of the wallet table; `name` holds the wallet's label. */
  datatype WalletRow = WalletRow(name: string, balance: Money, version: int)

  /** A row of the transaction table; `wallet` is the foreign key. */
  datatype TxRow = TxRow(wallet: WalletId, txid: string, amount: Money, timestamp: int)

  /**
   * The cache key is the text `wallet_balance_<pk>`; an instance without a
   * primary key renders `None`, so all unsaved wallets share one key.
   */
  type CacheKey = Option<WalletId>

  /** The database plus the process-wide balance cache. */
  datatype Store = Store(
    wallets: map<WalletId, WalletRow>,
    txs: map<TxId, TxRow>,
    cache: map<CacheKey, Money>,
    nextWallet: WalletId,
    nextTx: TxId)

  /** An empty database: auto-increment sequences start at 1. */
  const Empty := Store(map[], map[], map[], 1, 1)

  /**
   * A `Wallet` instance in memory. It is a snapshot: it keeps the balance and
   * version it was read with (or was assigned) until it is saved again.
   */
  datatype WalletObj = WalletObj(pk: Option<WalletId>, name: string, balance: Money, version: int)

  /** A `Transaction` instance in memory, holding its wallet instance. */
  datatype TxObj = TxObj(pk: Option<TxId>, wallet: WalletObj, txid: string, amount: Money, timestamp: int)

  /** The row an instance's save writes. */
  function RowOf(w: WalletObj): WalletRow {
    WalletRow(w.name, w.balance, w.version)
  }

  /** An ASCII capital letter becomes its small letter; every other character stays. */
  function FoldChar(c: char): (r: char)
    ensures 'A' <= c <= 'Z' ==> r != c && r as int - c as int == 32
    ensures !('A' <= c <= 'Z') ==> r == c
    ensures !('A' <= r <= 'Z')
  {
    if 'A' <= c <= 'Z' then (c as int + 32) as char else c
  }

  /** A text with every letter folded to small case. */
  function Fold(s: string): (r: string)
    ensures |r| == |s|
    ensures forall i :: 0 <= i < |s| ==> r[i] == FoldChar(s[i])
  {
    seq(|s|, i requires 0 <= i < |s| => FoldChar(s[i]))
  }

  /**
   * The txid column compares texts under the database's default collation,
   * which ignores the case of letters: two txids clash when they agree after
   * folding.
   */
  predicate SameTxid(a: string, b: string) {
    Fold(a) == Fold(b)
  }

  /** Does a row other than `except` already use `txid`, up to the collation? */
  predicate TxidTaken(txs: map<TxId, TxRow>, txid: string, except: Option<TxId>) {
    exists t :: t in txs && SameTxid(txs[t].txid, txid) && except != Some(t)
  }

  /** No two rows hold txids the collation considers equal. */
  predicate TxidsUnique(txs: map<TxId, TxRow>) {
    forall a, b :: a in txs && b in txs && a != b ==> !SameTxid(txs[a].txid, txs[b].txid)
  }

  /**
   * The database's integrity: the balance check constraint, the length of
   * the text columns, the foreign key of every transaction, the unique txid
   * column, and sequences ahead of every key in use.
   */
  ghost predicate Valid(s: Store) {
    && (forall w :: w in s.wallets ==>
          s.wallets[w].balance >= 0.0 && |s.wallets[w].name| <= LabelMaxLength && w < s.nextWallet)
    && (forall t :: t in s.txs ==>
          t < s.nextTx && s.txs[t].wallet in s.wallets && |s.txs[t].txid| <= TxidMaxLength)
    && TxidsUnique(s.txs)
  }
}

=== FILE: transactions.dfy ===
/**
 * The transaction model: `save` applies the amount to the caller's wallet
 * instance, saves that wallet, then writes the transaction row and drops the
 * wallet's cache key. The steps are not wrapped in a database transaction,
 * so a failure at the row write leaves the wallet write in place.
 */
module Transactions {
  import opened Base
  import opened Store
  import opened Cache
  import opened Wallets

  /** What a save leaves behind: the store, the mutated instance, the exception if any. */
  datatype TxSave = TxSave(store: Store, obj: TxObj, err: Option<Exception>)

  /** The errors the database raises at the row write, after the wallet was written. */
  predicate RowRejected(err: Option<Exception>) {
    err == Some(DataError(TxidColumnName)) || err == Some(IntegrityError(TxidUniqueName))
  }

  /**
   * The database write of a transaction row: a txid longer than its column
   * is refused (strict mode), then the unique txid index refuses a clash.
   * A new row is inserted under the next key. An instance with a key
   * overwrites its row; when that row is gone the update matches nothing and
   * the framework inserts it again, setting the creation timestamp anew.
   */
  function WriteTx(s: Store, t: TxObj, wallet: WalletId, now: int): (o: TxSave)
    ensures |t.txid| > TxidMaxLength ==> o == TxSave(s, t, Some(DataError(TxidColumnName)))
    ensures |t.txid| <= TxidMaxLength && TxidTaken(s.txs, t.txid, t.pk) ==>
              o == TxSave(s, t, Some(IntegrityError(TxidUniqueName)))
    ensures o.err.None? <==> |t.txid| <= TxidMaxLength && !TxidTaken(s.txs, t.txid, t.pk)
    ensures o.err.None? ==>
              && o.obj.pk.Some?
              && o.store == s.(txs := s.txs[o.obj.pk.value := TxRow(wallet, t.txid, t.amount, o.obj.timestamp)],
                               nextTx := o.store.nextTx)
              && o.obj.pk.value < o.store.nextTx && s.nextTx <= o.store.nextTx
    ensures o.err.None? && t.pk.None? ==> o.obj.pk == Some(s.nextTx) && o.obj.timestamp == now
    ensures o.err.None? && t.pk.Some? ==>
              o.obj == t.(timestamp := if t.pk.value in s.txs then t.timestamp else now)
  {
    if |t.txid| > TxidMaxLength then TxSave(s, t, Some(DataError(TxidColumnName)))
    else if TxidTaken(s.txs, t.txid, t.pk) then TxSave(s, t, Some(IntegrityError(TxidUniqueName)))
    else
      match t.pk
      case None =>
        var id := s.nextTx;
        TxSave(s.(txs := s.txs[id := TxRow(wallet, t.txid, t.amount, now)], nextTx := id + 1),
               t.(pk := Some(id), timestamp := now), None)
      case Some(id) =>
        var stamp := if id in s.txs then t.timestamp else now;
        TxSave(s.(txs := s.txs[id := TxRow(wallet, t.txid, t.amount, stamp)],
                  nextTx := if id < s.nextTx then s.nextTx else id + 1),
               t.(timestamp := stamp), None)
  }

  /**
   * `Transaction.save`. A save that would take the wallet instance's balance
   * below zero is refused before anything is written. Otherwise the delta is
   * added to the instance and the wallet is saved (version guard, version
   * bump); then the row is written, where the txid column can still refuse
   * it; finally the post-save signal invalidates the wallet's cache.
   */
  function SaveTransaction(s: Store, t: TxObj, now: int): (o: TxSave)
    ensures o.err.None? <==>
              && t.wallet.balance + t.amount >= 0.0 && GuardPasses(s, t.wallet) && |t.wallet.name| <= LabelMaxLength
              && |t.txid| <= TxidMaxLength && !TxidTaken(s.txs, t.txid, t.pk)
    ensures t.wallet.balance + t.amount < 0.0 ==> o == TxSave(s, t, Some(ValueError(NegativeBalanceMessage)))
    ensures t.wallet.balance + t.amount >= 0.0 && !GuardPasses(s, t.wallet) ==>
              o.store == s && o.err in {Some(ValueError(ConflictMessage)), Some(DoesNotExist(WalletMissingMessage))}
    ensures t.wallet.balance + t.amount >= 0.0 && t.wallet.pk.Some? && t.wallet.pk.value in s.wallets
              && !GuardPasses(s, t.wallet) ==>
              o.err == Some(ValueError(ConflictMessage))
    ensures t.wallet.balance + t.amount >= 0.0 && GuardPasses(s, t.wallet) && |t.wallet.name| > LabelMaxLength ==>
              o.store == s && o.err == Some(DataError(LabelColumnName))
    ensures o.err != Some(IntegrityError(BalanceCheckName))
    ensures o.err.None? || RowRejected(o.err) ==>
              && o.obj.wallet.pk.Some?
              && o.obj.wallet.balance == t.wallet.balance + t.amount
              && o.obj.wallet.version == (if t.wallet.pk.Some? then t.wallet.version + 1 else t.wallet.version)
              && o.store.wallets == s.wallets[o.obj.wallet.pk.value := RowOf(o.obj.wallet)]
    ensures RowRejected(o.err) ==> o.store.txs == s.txs && o.store.cache == s.cache
    ensures && t.wallet.balance + t.amount >= 0.0 && GuardPasses(s, t.wallet) && |t.wallet.name| <= LabelMaxLength
            && |t.txid| <= TxidMaxLength && TxidTaken(s.txs, t.txid, t.pk) ==>
              o.err == Some(IntegrityError(TxidUniqueName))
    ensures o.err == Some(DataError(TxidColumnName)) <==>
              && t.wallet.balance + t.amount >= 0.0 && GuardPasses(s, t.wallet) && |t.wallet.name| <= LabelMaxLength
              && |t.txid| > TxidMaxLength
    ensures o.err.None? ==>
              && o.obj.pk.Some?
              && o.store.txs == s.txs[o.obj.pk.value := TxRow(o.obj.wallet.pk.value, t.txid, t.amount, o.obj.timestamp)]
              && o.store.cache == Invalidate(s.cache, Some(o.obj.wallet.pk.value))
    ensures o.err.None? && t.pk.None? ==> o.obj.pk == Some(s.nextTx) && o.obj.timestamp == now
    ensures o.err.None? && t.pk.Some? ==>
              o.obj.pk == t.pk && o.obj.timestamp == (if t.pk.value in s.txs then t.timestamp else now)
  {
    if t.wallet.balance + t.amount < 0.0 then
      TxSave(s, t, Some(ValueError(NegativeBalanceMessage)))
    else
      var saved := SaveWallet(s, t.wallet.(balance := t.wallet.balance + t.amount));
      var t1 := t.(wallet := saved.obj);
      if saved.err.Some? then TxSave(saved.store, t1, saved.err)
      else
        var wallet := saved.obj.pk.value;
        var written := WriteTx(saved.store, t1, wallet, now);
        if written.err.Some? then written
        else TxSave(written.store.(cache := Invalidate(written.store.cache, Some(wallet))), written.obj, None)
  }

  /** `Transaction.objects.create(wallet=Wallet.objects.get(pk=id), txid=…, amount=…)`. */
  function CreateTransaction(s: Store, wallet: WalletId, txid: string, amount: Money, now: int): (o: TxSave)
    ensures wallet !in s.wallets ==> o.store == s && o.err == Some(DoesNotExist(WalletMissingMessage))
    ensures wallet in s.wallets ==>
              (o.err.None? <==>
                 && s.wallets[wallet].balance + amount >= 0.0 && |s.wallets[wallet].name| <= LabelMaxLength
                 && |txid| <= TxidMaxLength && !TxidTaken(s.txs, txid, None))
    ensures o.err.None? ==>
              && o.obj.pk == Some(s.nextTx)
              && wallet in s.wallets && wallet in o.store.wallets
              && o.store.wallets[wallet].balance == s.wallets[wallet].balance + amount
              && o.store.wallets[wallet].version == s.wallets[wallet].version + 1
              && o.store.wallets == s.wallets[wallet := o.store.wallets[wallet]]
              && o.store.txs == s.txs[s.nextTx := TxRow(wallet, txid, amount, now)]
              && o.store.cache == Invalidate(s.cache, Some(wallet))
  {
    match Fetch(s, wallet)
    case Err(e) => TxSave(s, TxObj(None, NewWallet("", None), txid, amount, now), Some(e))
    case Ok(w) => SaveTransaction(s, TxObj(None, w, txid, amount, now), now)
  }

  /**
   * Deleting a transaction removes its row and, through the post-delete
   * signal, its wallet's cache key. The wallet's balance is not restored.
   */
  function DeleteTransaction(s: Store, id: TxId): (r: Result<Store>)
    ensures r.Ok? <==> id in s.txs
    ensures r.Ok? ==> r.value.txs == s.txs - {id}
    ensures r.Ok? ==> r.value.wallets == s.wallets
    ensures r.Ok? ==> r.value.cache == Invalidate(s.cache, Some(s.txs[id].wallet))
  {
    if id !in s.txs then Err(DoesNotExist(TxMissingMessage))
    else Ok(s.(txs := s.txs - {id}, cache := Invalidate(s.cache, Some(s.txs[id].wallet))))
  }

  /** A row write that refers to a stored wallet keeps the database's integrity. */
  lemma WriteTxValid(s: Store, t: TxObj, wallet: WalletId, now: int)
    requires Valid(s) && wallet in s.wallets
    ensures Valid(WriteTx(s, t, wallet, now).store)
  {
  }

  /** Every transaction save keeps the database's integrity, including the partial write. */
  lemma SaveTransactionValid(s: Store, t: TxObj, now: int)
    requires Valid(s)
    ensures Valid(SaveTransaction(s, t, now).store)
  {
    var o := SaveTransaction(s, t, now);
    if t.wallet.balance + t.amount >= 0.0 {
      var w := t.wallet.(balance := t.wallet.balance + t.amount);
      var saved := SaveWallet(s, w);
      SaveWalletValid(s, w);
      if saved.err.Some? {
        assert o.store == saved.store;
      } else {
        var written := WriteTx(saved.store, t.(wallet := saved.obj), saved.obj.pk.value, now);
        WriteTxValid(saved.store, t.(wallet := saved.obj), saved.obj.pk.value, now);
        assert o.store == written.store || o.store == written.store.(cache := o.store.cache);
      }
    }
  }

  /** Creating a transaction keeps the database's integrity. */
  lemma CreateTransactionValid(s: Store, wallet: WalletId, txid: string, amount: Money, now: int)
    requires Valid(s)
    ensures Valid(CreateTransaction(s, wallet, txid, amount, now).store)
  {
  }

  /**
   * Two transactions built on instances of the same wallet read at the same
   * version: after the first is saved, the second fails with the conflict
   * error and writes nothing, so neither delta is lost silently.
   */
  lemma StaleInstanceRejected(s: Store, a: TxObj, b: TxObj, now: int, later: int)
    requires a.wallet.pk.Some? && a.wallet.pk == b.wallet.pk && a.wallet.version == b.wallet.version
    requires SaveTransaction(s, a, now).err.None?
    requires b.wallet.balance + b.amount >= 0.0
    ensures var s1 := SaveTransaction(s, a, now).store;
            SaveTransaction(s1, b, later) == TxSave(s1, b.(wallet := b.wallet.(balance := b.wallet.balance + b.amount)),
                                                    Some(ValueError(ConflictMessage)))
  {
  }

  /** Deleting a transaction keeps the database's integrity. */
  lemma DeleteTransactionValid(s: Store, id: TxId)
    requires Valid(s)
    ensures DeleteTransaction(s, id).Ok? ==> Valid(DeleteTransaction(s, id).value)
  {
  }
}

=== FILE: views.dfy ===
/**
 * The transaction view's create path: validation, `perform_create` and the
 * mapping of every outcome to a status code and an error envelope.
 */
module Views {
  import opened Base
  import opened Store
  import opened Wallets
  import opened Transactions
  import opened Serializers

  datatype ErrorItem = ErrorItem(detail: string)

  datatype Body = Created(data: TransactionData) | Errors(errors: seq<ErrorItem>)

  datatype Response = Response(status: int, body: Body)

  /** A step that may have written to the store whether or not it succeeded. */
  datatype Outcome<T> = Outcome(store: Store, result: Result<T>)

  /** The store a request leaves behind and the response it is answered with. */
  datatype Reply = Reply(store: Store, response: Response)

  /** The exceptions `perform_create` passes on with their own message. */
  predicate Recognised(e: Exception) {
    e.ValidationError? || e.IntegrityError?
  }

  /**
   * `perform_create`'s handlers: a validation or integrity error is raised
   * again as a validation error with its message; anything else becomes a
   * validation error with the generic message.
   */
  function Reraise(e: Exception): (r: Exception)
    ensures r.ValidationError?
    ensures Recognised(e) ==> r.msg == e.msg
    ensures !Recognised(e) ==> r.msg == UnexpectedMessage
  {
    if Recognised(e) then ValidationError(e.msg) else ValidationError(UnexpectedMessage)
  }

  /** `perform_create`: save through the model, re-raising any exception. */
  function PerformCreate(s: Store, d: TxInput, now: int): (o: Outcome<TxId>)
    ensures o.result.Err? ==> o.result.error.ValidationError?
    ensures o.result.Ok? <==> SaveTransaction(s, TxObj(None, d.wallet, d.txid, d.amount, now), now).err.None?
    ensures o.store == SaveTransaction(s, TxObj(None, d.wallet, d.txid, d.amount, now), now).store
    ensures o.result.Ok? ==> o.result.value == s.nextTx && o.result.value in o.store.txs
  {
    var saved := SaveTransaction(s, TxObj(None, d.wallet, d.txid, d.amount, now), now);
    match saved.err
    case Some(e) => Outcome(saved.store, Err(Reraise(e)))
    case None => Outcome(saved.store, Ok(saved.obj.pk.value))
  }

  /**
   * `create`'s handlers: a validation or integrity error answers 400 with
   * its message, anything else 500 with the generic message. Either way the
   * envelope holds exactly one error with a detail.
   */
  function ErrorResponse(e: Exception): (r: Response)
    ensures r.status == 400 <==> Recognised(e)
    ensures r.status == 500 <==> !Recognised(e)
    ensures r.body.Errors? && |r.body.errors| == 1
    ensures r.body.errors[0].detail == if Recognised(e) then e.msg else UnexpectedMessage
  {
    if Recognised(e) then Response(400, Errors([ErrorItem(e.msg)]))
    else Response(500, Errors([ErrorItem(UnexpectedMessage)]))
  }

  /** `TransactionViewSet.create`. */
  function Create(s: Store, p: Payload, now: int): (o: Reply)
    ensures o.response.status == 201 || o.response.status == 400
    ensures o.response.status == 201 <==>
              IsValid(s, p).Ok? && PerformCreate(s, IsValid(s, p).value, now).result.Ok?
    ensures o.response.status == 400 ==>
              o.response.body.Errors? && |o.response.body.errors| == 1
    ensures IsValid(s, p).Err? ==>
              o.store == s && o.response == Response(400, Errors([ErrorItem(IsValid(s, p).error.msg)]))
    ensures o.response.status == 201 ==>
              s.nextTx in o.store.txs && o.response.body == Created(SerializeTransaction(s.nextTx, o.store.txs[s.nextTx]))
  {
    match IsValid(s, p)
    case Err(e) => Reply(s, ErrorResponse(e))
    case Ok(d) =>
      var done := PerformCreate(s, d, now);
      match done.result
      case Err(e) => Reply(done.store, ErrorResponse(e))
      case Ok(id) => Reply(done.store, Response(201, Created(SerializeTransaction(id, done.store.txs[id]))))
  }

  /** A 500 comes only from an exception that reaches `create` unrecognised. */
  lemma ServerErrorOnlyForUnrecognised(e: Exception)
    ensures ErrorResponse(e).status == 500 <==> !Recognised(e)
    ensures ErrorResponse(Reraise(e)).status == 400
    ensures !Recognised(e) ==> ErrorResponse(Reraise(e)).body == Errors([ErrorItem(UnexpectedMessage)])
  {
  }

  /**
   * Without interleaving, on a database whose rows satisfy its constraints
   * (so the stored wallet's label fits its column), a request the serializer
   * accepts is always saved: 201 exactly when validation passes, and a 400
   * leaves the store untouched.
   */
  lemma CreateSequential(s: Store, p: Payload, now: int)
    requires Valid(s)
    ensures Create(s, p, now).response.status == 201 <==> IsValid(s, p).Ok?
    ensures Create(s, p, now).response.status == 400 ==> Create(s, p, now).store == s
  {
  }

  /**
   * A successful request stores the requested row, moves the wallet's
   * balance by the amount, bumps its version by one and drops its cache key.
   */
  lemma CreateSuccess(s: Store, p: Payload, now: int)
    requires Create(s, p, now).response.status == 201
    ensures var o := Create(s, p, now);
            var w := p.wallet.value as WalletId;
            && w in s.wallets && w in o.store.wallets
            && o.store.txs == s.txs[s.nextTx := TxRow(w, p.txid.value, p.amount.value, now)]
            && o.store.wallets[w].balance == s.wallets[w].balance + p.amount.value
            && o.store.wallets[w].version == s.wallets[w].version + 1
            && Some(w) !in o.store.cache
  {
  }

  /** A request that would make the balance negative: 400, the model's message, no write. */
  lemma CreateNegativeRejected(s: Store, p: Payload, now: int)
    requires WalletResolves(s, p) && TxidAcceptable(s, p) && p.amount.Some?
    requires s.wallets[p.wallet.value as WalletId].balance + p.amount.value < 0.0
    ensures Create(s, p, now) == Reply(s, Response(400, Errors([ErrorItem(NegativeBalanceMessage)])))
  {
  }

  /** A request whose txid is already stored: 400, no write. */
  lemma CreateDuplicateRejected(s: Store, p: Payload, now: int)
    requires WalletResolves(s, p) && p.txid.Some? && 0 < |p.txid.value| <= TxidMaxLength && '\0' !in p.txid.value
    requires TxidTaken(s.txs, p.txid.value, None)
    ensures Create(s, p, now) == Reply(s, Response(400, Errors([ErrorItem(TxidExistsMessage)])))
  {
  }

  /** A request whose txid holds a NUL character: 400, no write. */
  lemma CreateNullCharacterRejected(s: Store, p: Payload, now: int)
    requires WalletResolves(s, p) && p.txid.Some? && 0 < |p.txid.value| <= TxidMaxLength && '\0' in p.txid.value
    ensures Create(s, p, now) == Reply(s, Response(400, Errors([ErrorItem(NullCharactersMessage)])))
  {
  }

  /** A request naming a wallet that does not exist: 400, no write. */
  lemma CreateUnknownWalletRejected(s: Store, p: Payload, now: int)
    requires p.wallet.Some? && !WalletResolves(s, p)
    ensures Create(s, p, now) == Reply(s, Response(400, Errors([ErrorItem(WalletNotFoundMessage)])))
  {
  }

  /**
   * Two requests on the same wallet validated against the same consistent store, then
   * performed one after the other: the second holds a stale wallet version,
   * its save fails with the conflict error, the view answers 400 with the
   * generic message, and the store is left as the first request made it.
   */
  lemma InterleavedSameWallet(s: Store, p: Payload, q: Payload, now: int)
    requires Valid(s)
    requires IsValid(s, p).Ok? && IsValid(s, q).Ok? && p.wallet == q.wallet
    ensures var first := PerformCreate(s, IsValid(s, p).value, now);
            var second := PerformCreate(first.store, IsValid(s, q).value, now);
            && first.result.Ok?
            && second.result == Err(ValidationError(UnexpectedMessage))
            && second.store == first.store
            && ErrorResponse(second.result.error) == Response(400, Errors([ErrorItem(UnexpectedMessage)]))
  {
  }

  /**
   * Two requests with the same txid on different wallets, validated against
   * the same consistent store, then performed one after the other: the second passes
   * the version guard, writes its wallet, and only then hits the unique txid
   * column. The view answers 400, yet the second wallet's balance has moved
   * and no row records it.
   */
  lemma InterleavedDuplicateTxid(s: Store, p: Payload, q: Payload, now: int)
    requires Valid(s)
    requires IsValid(s, p).Ok? && IsValid(s, q).Ok? && p.wallet != q.wallet && p.txid == q.txid
    ensures var first := PerformCreate(s, IsValid(s, p).value, now);
            var second := PerformCreate(first.store, IsValid(s, q).value, now);
            var w := q.wallet.value as WalletId;
            && first.result.Ok?
            && second.result == Err(ValidationError(TxidUniqueName))
            && second.store.txs == first.store.txs
            && w in second.store.wallets
            && second.store.wallets[w].balance == s.wallets[w].balance + q.amount.value
            && second.store.wallets[w].version == s.wallets[w].version + 1
  {
  }
}

=== FILE: wallets.dfy ===
/**
 * The wallet model: lookup, creation with defaults, the optimistic version
 * guard in `save`, the balance check constraint, and cascading deletion.
 */
module Wallets {
  import opened Base
  import opened Store
  import opened Cache

  /** `Wallet.objects.get(pk=id)`: a fresh instance of the stored row. */
  function Fetch(s: Store, id: WalletId): (r: Result<WalletObj>)
    ensures r.Ok? <==> id in s.wallets
    ensures r.Ok? ==> r.value.pk == Some(id) && RowOf(r.value) == s.wallets[id]
    ensures r.Err? ==> r.error == DoesNotExist(WalletMissingMessage)
  {
    if id in s.wallets then
      var row := s.wallets[id];
      Ok(WalletObj(Some(id), row.name, row.balance, row.version))
    else
      Err(DoesNotExist(WalletMissingMessage))
  }

  /** An unsaved instance built from keyword arguments; omitted balance is 0. */
  function NewWallet(name: string, balance: Option<Money>): WalletObj {
    WalletObj(None, name, if balance.Some? then balance.value else 0.0, 0)
  }

  /**
   * The version guard lets a save through: a new instance is never checked,
   * an existing one must still be stored with the version it holds.
   */
  predicate GuardPasses(s: Store, w: WalletObj) {
    w.pk.None? || (w.pk.value in s.wallets && s.wallets[w.pk.value].version == w.version)
  }

  /** What a save leaves behind: the store, the mutated instance, the exception if any. */
  datatype WalletSave = WalletSave(store: Store, obj: WalletObj, err: Option<Exception>)

  /**
   * The database write: a label longer than its column is refused (strict
   * mode), then the check constraint rejects a negative balance.
   */
  function WriteRow(s: Store, id: WalletId, w: WalletObj): WalletSave {
    if |w.name| > LabelMaxLength then WalletSave(s, w, Some(DataError(LabelColumnName)))
    else if w.balance < 0.0 then WalletSave(s, w, Some(IntegrityError(BalanceCheckName)))
    else WalletSave(s.(wallets := s.wallets[id := RowOf(w)]), w, None)
  }

  /**
   * `Wallet.save`. For an instance with a primary key: look the row up, fail
   * with a conflict when its version differs from the instance's, otherwise
   * bump the instance's version and write. A new instance is inserted under
   * the next key with its version as is.
   */
  function SaveWallet(s: Store, w: WalletObj): (o: WalletSave)
    ensures o.err.None? <==> GuardPasses(s, w) && |w.name| <= LabelMaxLength && w.balance >= 0.0
    ensures o.err.Some? ==> o.store == s
    ensures o.err.None? ==> o.obj.pk.Some? && o.store.wallets == s.wallets[o.obj.pk.value := RowOf(o.obj)]
    ensures o.store.txs == s.txs && o.store.cache == s.cache && o.store.nextTx == s.nextTx
    ensures o.obj.name == w.name && o.obj.balance == w.balance
    ensures w.pk.Some? && w.pk.value !in s.wallets ==>
              o.err == Some(DoesNotExist(WalletMissingMessage)) && o.obj == w
    ensures w.pk.Some? && w.pk.value in s.wallets && s.wallets[w.pk.value].version != w.version ==>
              o.err == Some(ValueError(ConflictMessage)) && o.obj == w
    ensures w.pk.Some? && GuardPasses(s, w) ==>
              o.obj == w.(version := w.version + 1) && o.store.nextWallet == s.nextWallet
    ensures GuardPasses(s, w) && |w.name| > LabelMaxLength ==> o.err == Some(DataError(LabelColumnName))
    ensures GuardPasses(s, w) && |w.name| <= LabelMaxLength && w.balance < 0.0 ==>
              o.err == Some(IntegrityError(BalanceCheckName))
    ensures w.pk.None? ==> o.obj.version == w.version
    ensures w.pk.None? && o.err.None? ==>
              o.obj.pk == Some(s.nextWallet) && o.store.nextWallet == s.nextWallet + 1
  {
    match w.pk
    case Some(id) =>
      if id !in s.wallets then WalletSave(s, w, Some(DoesNotExist(WalletMissingMessage)))
      else if s.wallets[id].version != w.version then WalletSave(s, w, Some(ValueError(ConflictMessage)))
      else WriteRow(s, id, w.(version := w.version + 1))
    case None =>
      var id := s.nextWallet;
      var o := WriteRow(s.(nextWallet := id + 1), id, w.(pk := Some(id)));
      if o.err.Some? then WalletSave(s, w, o.err) else o
  }

  /** `Wallet.objects.create(label=…, balance=…)`. */
  function CreateWallet(s: Store, name: string, balance: Option<Money>): (o: WalletSave)
    ensures o.err.None? <==> |name| <= LabelMaxLength && (balance.None? || balance.value >= 0.0)
    ensures |name| > LabelMaxLength ==> o.err == Some(DataError(LabelColumnName))
    ensures o.err.Some? ==> o.store == s
    ensures o.err.None? ==>
              && o.obj.pk == Some(s.nextWallet)
              && o.obj.version == 0
              && o.obj.balance == (if balance.Some? then balance.value else 0.0)
              && o.store.wallets == s.wallets[s.nextWallet := WalletRow(name, o.obj.balance, 0)]
  {
    SaveWallet(s, NewWallet(name, balance))
  }

  /** Does any transaction reference wallet `id`? */
  predicate HasTransactions(s: Store, id: WalletId) {
    exists t :: t in s.txs && s.txs[t].wallet == id
  }

  /**
   * Deleting a wallet cascades to its transactions. The framework sends the
   * post-delete signal for every cascaded transaction, so the wallet's cache
   * key is dropped exactly when it had at least one transaction.
   */
  function DeleteWallet(s: Store, id: WalletId): (r: Result<Store>)
    ensures r.Ok? <==> id in s.wallets
    ensures r.Err? ==> r.error == DoesNotExist(WalletMissingMessage)
    ensures r.Ok? ==> r.value.wallets == s.wallets - {id}
    ensures r.Ok? ==> forall t :: t in r.value.txs <==> t in s.txs && s.txs[t].wallet != id
    ensures r.Ok? ==> forall t :: t in r.value.txs ==> r.value.txs[t] == s.txs[t]
    ensures r.Ok? ==> (Some(id) in r.value.cache <==> Some(id) in s.cache && !HasTransactions(s, id))
    ensures r.Ok? ==> forall k :: k != Some(id) ==> (k in r.value.cache <==> k in s.cache)
    ensures r.Ok? ==> forall k :: k in r.value.cache ==> r.value.cache[k] == s.cache[k]
  {
    if id !in s.wallets then Err(DoesNotExist(WalletMissingMessage))
    else
      var txs := map t | t in s.txs && s.txs[t].wallet != id :: s.txs[t];
      var cache := if HasTransactions(s, id) then Invalidate(s.cache, Some(id)) else s.cache;
      Ok(s.(wallets := s.wallets - {id}, txs := txs, cache := cache))
  }

  /** Every wallet save keeps the database's integrity; no stored balance is ever negative. */
  lemma SaveWalletValid(s: Store, w: WalletObj)
    requires Valid(s)
    ensures Valid(SaveWallet(s, w).store)
  {
  }

  /** Deleting a wallet keeps the database's integrity: no transaction is orphaned. */
  lemma DeleteWalletValid(s: Store, id: WalletId)
    requires Valid(s)
    ensures DeleteWallet(s, id).Ok? ==> Valid(DeleteWallet(s, id).value)
  {
  }

  /**
   * Two instances read at the same version: once one is saved, saving the
   * other fails with the conflict error and changes nothing.
   */
  lemma SecondSaveConflicts(s: Store, a: WalletObj, b: WalletObj)
    requires a.pk.Some? && a.pk == b.pk && a.version == b.version
    requires SaveWallet(s, a).err.None?
    ensures SaveWallet(SaveWallet(s, a).store, b).err == Some(ValueError(ConflictMessage))
    ensures SaveWallet(SaveWallet(s, a).store, b).store == SaveWallet(s, a).store
  {
  }
}
